=== FILE: README.md ===
# QuranAnalyzer core, modelled in Dafny

QuranAnalyzer is a FastAPI service. It asks an OpenAI chat model for the morphological analysis of Arabic words. Under the HTTP and client wiring sits a small deterministic core, which this project models and proves properties of:

- the user prompt built for a word, and the fixed system prompt (`Prompts`);
- the code-fence normaliser `clean_json_response` (`OpenAIService`);
- the start-up check of the API key (`OpenAIService`);
- `analyze_word`'s steps (`OpenAIService`): strip the reply, clean it, decode it, and wrap every failure as a `ValueError` whose message starts "Error analyzing word: ";
- the two endpoints (`WordAnalysis`). The single-word endpoint maps every failure to HTTP 500. The bulk endpoint keeps the successful analyses in input order, logs each failure against its own word and skips it, and maps a failure to build the response model to HTTP 500.

Python's `str` operations (`strip`, `startswith`, `in`, `split`) are modelled in `Text` over `string`, as sequences of code points. `IndexOf` is the search for the separator inside `split`, and `Join` lays out the lines of the prompt template:

- `strip()` removes exactly the characters for which `str.isspace()` holds;
- `split(sep)` cuts at non-overlapping occurrences found from left to right.

The model's external dependencies are all parameters:

- The chat-completion call is a function `complete: ChatRequest -> Completion`. Its result is either the reply text, or the message of whatever the call, or reading the first choice's content, raised.
- `json.loads` is a function `decode: string -> Decoding<J>` over an abstract JSON type `J`.
- Building the bulk response model converts each decoded value to a `WordAnalysis` record with `convert: J -> Option<W>`, and `describe` gives the text of the validation error when one does not convert.

Lemmas quantify over all of these, so they hold whatever the model provider replies.

Two things the code does not do, which the model does not claim either:

- **No object check.** `analyze_word` is annotated `-> dict` (app/services/openai_service.py:94), but nothing checks that `json.loads` produced an object: it returns whatever was decoded (app/services/openai_service.py:120-122). `AnalyzeWordSucceeds` states that the decoder's value is returned unchanged.
- **The word in the error.** The raised message is "Error analyzing word: " followed by the cause (app/services/openai_service.py:130). It does not contain the word, although the error log written just before it, at line 129, does. `AnalyzeWordDependsOnlyOnReply` states that two words whose requests get the same reply get the same outcome, error message included.

Further points the model makes explicit:

- **The cleaned segment.** `clean_json_response` takes the text between the FIRST and the SECOND fence, although its comment says "first and last". `split` finds the second fence as the first occurrence after the first one, which may begin inside a longer run of backticks.
- **Prompt braces and escaping.** The template writes its braces doubled, and they render as single braces; `Prompts` holds the rendered text, so its constants carry single braces. The word is inserted twice without escaping (`PromptStartsWithWord`, `PromptEchoesWord`).
- **Prompt keys versus schema fields.** The prompt's JSON template spells four of its keys with a space, where the response schema uses an underscore (app/prompts/arabic_analysis.py:36, 40, 41, 43 against app/schemas/word.py:31, 35, 36, 38).

## Model

| member | source | states |
|---|---|---|
| Text.Strip | app/services/openai_service.py:32 | `str.strip()`: the result begins and ends with no whitespace character and is no longer than the input |
| Text.StripIsInnerSlice | app/services/openai_service.py:32 | stripping keeps a contiguous middle part of the text and removes only whitespace on either side of it |
| Text.StripUnpadded | app/services/openai_service.py:32 | text that neither begins nor ends with whitespace is unchanged by `strip()` |
| Text.StripNoLeadingSpace | app/services/openai_service.py:32 | when the text does not begin with whitespace, `strip()` removes only trailing whitespace |
| Text.StripPadded | app/services/openai_service.py:36 | any whitespace padding around unpadded text is removed by `strip()`, and nothing else is |
| Text.IndexOf | app/services/openai_service.py:25 | the leftmost search `split` performs: a found index is an occurrence with no earlier occurrence; nothing is found exactly when the text does not contain the separator |
| Text.IndexOfKeepsFirst | app/services/openai_service.py:25 | the first occurrence does not change when text is appended after it |
| Text.Split | app/services/openai_service.py:25 | `split(sep)` always yields at least one part |
| Text.SplitCutsAtFirst | app/services/openai_service.py:25 | `split(sep)` returns the text whole when the separator is absent; otherwise its first part is the text before the leftmost occurrence, and the rest is the split of the text after it |
| Text.SplitJoin | app/services/openai_service.py:25 | joining the parts of `split(sep)` with `sep` gives back the original text |
| Text.SplitPartsAvoidSeparator | app/services/openai_service.py:25 | no part produced by `split(sep)` contains `sep` |
| Text.JoinContainsPart | app/prompts/arabic_analysis.py:32-44 | each part occurs verbatim in the joined text |
| OpenAIService.AfterFirstNewline | app/services/openai_service.py:31 | `split('\n', 1)[1]` is the suffix that follows the first line break, and the part dropped before it contains no other line break |
| OpenAIService.DropFirstLine | app/services/openai_service.py:30-31 | a segment without a line break is kept as is; otherwise a strictly shorter suffix is kept |
| OpenAIService.CleanJsonResponse | app/services/openai_service.py:20-32 | the result begins and ends with no whitespace character and is never longer than the input |
| OpenAIService.CleanUnfenced | app/services/openai_service.py:23-32 | text that does not start with a fence is only stripped |
| OpenAIService.CleanSingleFence | app/services/openai_service.py:23-32 | with one fence and no second fence after it, the whole text, marker included, comes back stripped |
| OpenAIService.SplitFenced | app/services/openai_service.py:25-28 | for text starting with a fence that has a later fence, `split` yields at least three parts, and the second part is the text between the first fence and the next one |
| OpenAIService.CleanFirstSegment | app/services/openai_service.py:25-32 | with a second fence, the result is the text between the first fence and the next one, with its first line dropped, stripped |
| OpenAIService.CleanFencedBlock | app/services/openai_service.py:25-32 | fence, backtick-free body, fence, anything: the result is the body with its first line dropped, stripped |
| OpenAIService.CleanIgnoresTrailer | app/services/openai_service.py:25-28 | anything after the second fence can be replaced by any text without changing the result |
| OpenAIService.CleanFencedHasNoFence | app/services/openai_service.py:25-32 | with a second fence, the result contains no fence at all |
| OpenAIService.CleanFenceFree | app/services/openai_service.py:20-32 | stripped text containing no fence is a fixed point |
| OpenAIService.CleanIdempotent | app/services/openai_service.py:20-32 | for input not beginning with whitespace (which line 112 guarantees), cleaning twice equals cleaning once |
| OpenAIService.CleanNotIdempotentWhenIndented | app/services/openai_service.py:23-32 | for input beginning with whitespace, idempotence fails: an indented one-line fenced block loses its fences only on the second pass |
| OpenAIService.DropTagLine | app/services/openai_service.py:30-31 | a first line with no line break inside it is dropped together with its line break, and exactly that is dropped |
| OpenAIService.CleanTaggedBlock | app/services/openai_service.py:27-32 | a fenced block whose first line is any tag, followed by a payload, gives back exactly the payload |
| OpenAIService.CleanJsonBlocks | app/services/openai_service.py:27-31 | a fenced block tagged `json` and an untagged fenced block both give back exactly the payload |
| OpenAIService.CleanOneLineBlock | app/services/openai_service.py:28-32 | a one-line fenced block keeps its tag (e.g. `json{}` stays `json{}`), because no line break marks where the tag ends |
| OpenAIService.ValidateApiKey | app/services/openai_service.py:36-38 | an accepted key is stripped and starts with `sk-`; a rejected key gives `ValueError("Invalid OpenAI API key format")` |
| OpenAIService.ApiKeyAcceptance | app/services/openai_service.py:36-38 | a key padded with whitespace is accepted exactly when the unpadded key starts with `sk-`, and the accepted value is the unpadded key |
| OpenAIService.RequestFor | app/services/openai_service.py:102-107 | the system message is `SYSTEM_PROMPT`, "You are an expert in Arabic morphology." (app/prompts/arabic_analysis.py:5), and the user message is exactly the analysis prompt for the word, which starts by quoting the word |
| OpenAIService.HandleCompletion | app/services/openai_service.py:112-130 | whatever the completion and the decoder do, every failure is a `ValueError` whose message starts "Error analyzing word: " |
| OpenAIService.AnalyzeWord | app/services/openai_service.py:94-130 | every failure is a `ValueError` whose message starts "Error analyzing word: " |
| OpenAIService.AnalyzeWordSucceeds | app/services/openai_service.py:112-122 | success exactly when the call replied and the decoder accepted the stripped and cleaned reply; the value is then the decoder's, with no check of shape or keys |
| OpenAIService.AnalyzeWordFails | app/services/openai_service.py:123-130 | a failed call is wrapped once, as "Error analyzing word: " + cause; a decode error is wrapped twice, as "Error analyzing word: Invalid JSON response from OpenAI: " + cause |
| OpenAIService.AnalyzeWordDependsOnlyOnReply | app/services/openai_service.py:128-130 | the outcome, error message included, depends on the word only through the request, so the message never names the word |
| OpenAIService.DecoderInputIsClean | app/services/openai_service.py:112-116 | the text handed to the decoder is a fixed point of cleaning |
| Prompts.AnalysisPrompt | app/prompts/arabic_analysis.py:8-45 | `get_analysis_prompt(word)` is fixed text with the word inserted at exactly two places, so all other text does not depend on the word |
| Prompts.PromptStartsWithWord | app/prompts/arabic_analysis.py:18-19 | the prompt begins with a line break, four spaces and `Given the Arabic word "`, then the word verbatim and unescaped, then a quote |
| Prompts.PromptContainsEntry | app/prompts/arabic_analysis.py:32-44 | every line of the JSON example occurs in the prompt |
| Prompts.EntryContainsKey | app/prompts/arabic_analysis.py:33-43 | a line of the JSON example holds its quoted key, a colon and its quoted value |
| Prompts.PromptEchoesWord | app/prompts/arabic_analysis.py:33 | the word occurs a second time, quoted, as the value of the key "الكلمة" |
| Prompts.PromptListsEveryKey | app/prompts/arabic_analysis.py:33-43 | each of the eleven keys, spelled with spaces, occurs quoted and followed by a colon |
| Prompts.PromptInjective | app/prompts/arabic_analysis.py:18-45 | different words give different prompts |
| Prompts.TemplateKeysVersusSchema | app/prompts/arabic_analysis.py:33-43 | the eleven template keys correspond to the eleven schema fields position by position; a key is itself a field name exactly when it contains no space; every required field occurs among the keys |
| WordAnalysis.AnalyzeSingleWord | app/routers/word_analysis.py:20-25 | a failure becomes HTTP 500 whose detail starts "Error analyzing word: " |
| WordAnalysis.SingleWordResponse | app/routers/word_analysis.py:20-25 | the endpoint returns the analysis exactly when there is one; it fails exactly with status 500 and detail equal to the error's message |
| WordAnalysis.ZipLength | app/routers/word_analysis.py:45 | `zip` pairs as many items as the shorter list holds |
| WordAnalysis.CollectSuccesses | app/routers/word_analysis.py:44-50 | the loop's results are the successes among the zipped outcomes, and its log holds one line per failure, each naming its word; one entry per zipped pair in total |
| WordAnalysis.SuccessesAppend | app/routers/word_analysis.py:44-50 | filtering the concatenation of two lists gives the concatenation of the filtered lists, so relative order is kept |
| WordAnalysis.SkipsOnlyTheFailure | app/routers/word_analysis.py:46-49 | a failure removes itself and no other item |
| WordAnalysis.SuccessesInOrder | app/routers/word_analysis.py:44-50 | the k-th result is the outcome at the k-th of a strictly increasing list of positions that includes every successful position |
| WordAnalysis.SuccessMembership | app/routers/word_analysis.py:44-50 | a value is in the output exactly when some outcome succeeded with it |
| WordAnalysis.SuccessCount | app/routers/word_analysis.py:45-50 | the output has one entry per successful outcome, so it is never longer than the input |
| WordAnalysis.AllSucceed | app/routers/word_analysis.py:45-50 | when no outcome failed, the loop keeps the list of analyses, unchanged |
| WordAnalysis.FailureLoggedAgainstItsWord | app/routers/word_analysis.py:45-47 | a failure at position i is logged with the word at position i |
| WordAnalysis.LogLineFromFailure | app/routers/word_analysis.py:45-47 | every log line is that of some failure, naming the word at the failure's position |
| WordAnalysis.FailureLogExact | app/routers/word_analysis.py:45-47 | a line is in the log exactly when it is the line of some failure, with the word at that failure's position |
| WordAnalysis.ConvertAll | app/schemas/word.py:58-59 | the list of analyses converts to a list of `WordAnalysis` records exactly when every entry converts; the records then correspond to the entries one by one, in order |
| WordAnalysis.BulkResponse | app/routers/word_analysis.py:52-55 | the response returns the records converted from the successes exactly when every one of them converts, one record per entry in the same order; otherwise it fails with HTTP 500 and the validation error's text |
| WordAnalysis.GatheredSuccesses | app/routers/word_analysis.py:35-50 | when the outcomes are gathered by analysing each word, the output holds the analysis of exactly the words whose analysis succeeded |
| WordAnalysis.GatheredInWordOrder | app/routers/word_analysis.py:35-50 | when the outcomes are gathered by analysing each word, the analyses come out in the order of their words: the output for two word lists in sequence is the two outputs in sequence |
| WordAnalysis.GatheredFailureLog | app/routers/word_analysis.py:35-49 | when the outcomes are gathered by analysing each word, an error is logged exactly for each word whose analysis failed, naming that word and its error message |
| WordAnalysis.GatheredAnalyzeWordFailures | app/routers/word_analysis.py:35-47 | the bulk endpoint gathers `analyze_word` for each word, so each failed outcome carries a message starting "Error analyzing word: " |
| WordAnalysis.AnalyzeMultipleWords | app/routers/word_analysis.py:44-55 | given one gathered outcome per word, the response is the records converted from the successes when they all convert and HTTP 500 otherwise; the log holds a line for each failure; an empty word list returns an empty list with no log |
| WordAnalysis.SuccessesKeep | app/routers/word_analysis.py:44-50 | every entry of the output has any property that every successful analysis has |
| WordAnalysis.FailuresNeverFailTheRequest | app/routers/word_analysis.py:44-52 | when every successful analysis converts, the request succeeds, however many analyses failed |
| WordAnalysis.OneInvalidAnalysisFailsTheRequest | app/routers/word_analysis.py:52-55 | a single successful analysis that does not convert turns the whole bulk request into HTTP 500 |

## Left out

- The network:
  - the OpenAI and httpx clients, their timeouts and global state (app/services/openai_service.py:75-91);
  - `test_connectivity` and `cleanup` (app/services/openai_service.py:44-67, 133-139).
  The completion call is the parameter `complete`.
- Settings passed to the call:
  - the model name;
  - the temperature, which is floating point;
  - `max_tokens`.
  These are settings of the request, not of the model here. app/core/config.py is not part of this model.
- `json.loads`:
  - It is the uninterpreted parameter `decode`.
  - Exceptions it raises other than `JSONDecodeError` (for example `RecursionError`) would be wrapped once, not twice. The model only has the decode-error case.
- The type of `content`:
  - A reply whose content is `None` raises on `.strip()`, and that message is wrapped once. It is modelled as a `Raised` completion.
- Concurrency:
  - The `asyncio.gather` fan-out runs the analyses concurrently.
  - The model takes the aligned outcome list as given: `Gathered` applies a per-word analysis at each position, and `Outcomes` is that with `analyze_word`. The bulk method receives this list as its input.
  - An analysis ending in `CancelledError`, or in any other `BaseException` that `except Exception` (app/services/openai_service.py:128) does not catch, except `KeyboardInterrupt` and `SystemExit` (which asyncio re-raises out of the event loop), is not modelled. For those, `gather` with `return_exceptions=True` collects it, `isinstance(result, Exception)` at app/routers/word_analysis.py:46 is false for it, so the loop appends it as if it were a success, and building the response at line 52 then fails with HTTP 500.
- Logging, apart from the per-word failure entries of the bulk loop, which are modelled as (word, message) pairs rather than as the formatted line "Error analyzing word '<word>': <message>":
  - the log format;
  - the other log calls, which are observability only.
- Pydantic and FastAPI:
  - request parsing;
  - the response-model validation FastAPI applies to the single endpoint's return value, which runs outside the handler's `try`;
  - the text of a pydantic validation error.
  Conversion to the bulk response model is the parameter `convert`, with `describe` for its error message.
- app/main.py (application wiring and startup) is not part of this model.
- WordAnalysis.BulkResponse: what a record holds is left to `convert`. The model does not state that pydantic keeps only the fields `WordAnalysis` declares (app/schemas/word.py:27-38), ignores other keys, and sets an absent optional field to None. So it does not show that the four values the prompt asks for under keys spelled with a space (app/prompts/arabic_analysis.py:36, 40, 41, 43) are dropped from the response, and that their underscored fields come back None; `Prompts.TemplateKeysVersusSchema` states the mismatch of the keys.
- OpenAIService.ValidateApiKey: the check runs once at import time and raises there. The model states it as a function of the configured key.

=== FILE: openai_service.dfy ===
/** The deterministic part of `app/services/openai_service.py`: the
    code-fence normaliser `clean_json_response`, the start-up check of the
    API key, and the trim, clean, decode and error-wrapping steps of
    `analyze_word`. The completion call and `json.loads` are parameters. */
module OpenAIService {
  import opened Wrappers
  import opened Text
  import Prompts

  /** The markdown code-fence marker. */
  const Fence: string := "```"

  /** The only exception type the service raises. */
  datatype Error = ValueError(message: string)

  // ---------------------------------------------------------------------
  // clean_json_response

  /** `segment.split('\n', 1)[1]`: the text after the first line break. */
  function AfterFirstNewline(segment: string): (r: string)
    requires '\n' in segment
    ensures |r| < |segment| && r == segment[|segment| - |r|..]
    ensures segment[|segment| - |r| - 1] == '\n'
    ensures '\n' !in segment[..|segment| - |r| - 1]
  {
    if segment[0] == '\n' then segment[1..]
    else
      assert '\n' in segment[1..] by {
        var i :| 0 <= i < |segment| && segment[i] == '\n';
        assert segment[1..][i - 1] == '\n';
      }
      AfterFirstNewline(segment[1..])
  }

  /** Drops everything up to and including the first line break, when
      there is one, whether or not the dropped text is a language tag. */
  function DropFirstLine(segment: string): (r: string)
    ensures '\n' !in segment ==> r == segment
    ensures '\n' in segment ==> |r| < |segment| && r == segment[|segment| - |r|..]
  {
    if '\n' in segment then AfterFirstNewline(segment) else segment
  }

  /** `clean_json_response(content)`: when the text starts with a fence and
      `split` finds a second one, the part between the first two fences with
      its first line dropped; otherwise the whole text. Trimmed either way. */
  function CleanJsonResponse(content: string): (r: string)
    ensures NoEdgeSpace(r)
    ensures |r| <= |content|
  {
    if StartsWith(content, Fence) then
      var parts := Split(content, Fence);
      if |parts| >= 3 then
        var segment := DropFirstLine(parts[1]);
        assert |segment| <= |content| by {
          SplitJoin(content, Fence);
          JoinContainsPart(Fence, parts, 1);
          var j :| OccursAt(content, parts[1], j);
        }
        Strip(segment)
      else Strip(content)
    else Strip(content)
  }

  /** The second fence of a fenced text: `split` cuts `content` into the
      empty text before the opening fence, then the text up to the first
      fence that starts after it. */
  lemma SplitFenced(content: string, k: nat)
    requires StartsWith(content, Fence)
    requires IndexOf(content[3..], Fence) == Some(k)
    ensures |Split(content, Fence)| >= 3
    ensures Split(content, Fence)[1] == content[3..3 + k]
  {
    IndexOfFirst(content, Fence, 0);
    var rest := content[3..];
    assert Split(content, Fence) == [""] + Split(rest, Fence);
    assert Split(rest, Fence) == [rest[..k]] + Split(rest[k + 3..], Fence);
  }

  /** Text not starting with a fence is only trimmed. */
  lemma CleanUnfenced(content: string)
    requires !StartsWith(content, Fence)
    ensures CleanJsonResponse(content) == Strip(content)
  {
  }

  /** A lone opening fence (no other fence starts after it) falls through:
      the whole text, marker included, comes back trimmed. */
  lemma CleanSingleFence(content: string)
    requires StartsWith(content, Fence)
    requires !Contains(content[3..], Fence)
    ensures CleanJsonResponse(content) == Strip(content)
  {
    IndexOfFirst(content, Fence, 0);
    var rest := content[3..];
    assert Split(content, Fence) == [""] + Split(rest, Fence);
    assert Split(rest, Fence) == [rest];
  }

  /** With a second fence, the result is the text between the first fence
      and the next fence, its first line dropped, trimmed. */
  lemma CleanFirstSegment(content: string, k: nat)
    requires StartsWith(content, Fence)
    requires IndexOf(content[3..], Fence) == Some(k)
    ensures CleanJsonResponse(content) == Strip(DropFirstLine(content[3..3 + k]))
  {
    SplitFenced(content, k);
  }

  /** In a body free of backticks, the first fence is the one after it. */
  lemma FenceAfterBody(body: string, trailer: string)
    requires '`' !in body
    ensures IndexOf(body + Fence + trailer, Fence) == Some(|body|)
  {
    var rest := body + Fence + trailer;
    assert rest[|body|..|body| + 3] == Fence;
    forall j | 0 <= j < |body|
      ensures !OccursAt(rest, Fence, j)
    {
      assert rest[j] == body[j];
    }
    IndexOfFirst(rest, Fence, |body|);
  }

  /** The usual shape of a fenced reply: a fence, a body free of backticks,
      a fence, and anything at all after it, which is discarded. */
  lemma CleanFencedBlock(body: string, trailer: string)
    requires '`' !in body
    ensures CleanJsonResponse(Fence + body + Fence + trailer) == Strip(DropFirstLine(body))
  {
    var content := Fence + body + Fence + trailer;
    assert content[3..] == body + Fence + trailer;
    FenceAfterBody(body, trailer);
    assert content[3..3 + |body|] == body;
    assert StartsWith(content, Fence);
    CleanFirstSegment(content, |body|);
  }

  /** Anything after the second fence is discarded. */
  lemma CleanIgnoresTrailer(content: string, k: nat, trailer: string)
    requires StartsWith(content, Fence)
    requires IndexOf(content[3..], Fence) == Some(k)
    ensures k + 6 <= |content|
    ensures CleanJsonResponse(content[..k + 6] + trailer) == CleanJsonResponse(content)
  {
    var cut := content[..k + 6] + trailer;
    assert cut[3..] == content[3..][..k + 3] + trailer;
    assert cut[..3] == content[..3];
    assert cut[3..3 + k] == content[3..3 + k];
    IndexOfKeepsFirst(content[3..], Fence, k, trailer);
    CleanFirstSegment(cut, k);
    CleanFirstSegment(content, k);
  }

  /** Dropping the first line keeps a suffix, so it adds no occurrence. */
  lemma DropFirstLineAvoids(segment: string, t: string)
    requires !Contains(segment, t)
    ensures !Contains(DropFirstLine(segment), t)
  {
    var dropped := DropFirstLine(segment);
    SliceAvoids(segment, |segment| - |dropped|, |segment|, t);
    assert segment[|segment| - |dropped|..|segment|] == dropped;
  }

  /** With a second fence, the result holds no fence at all: it lies inside
      the first segment, which `split` leaves free of fences. */
  lemma CleanFencedHasNoFence(content: string)
    requires StartsWith(content, Fence)
    requires Contains(content[3..], Fence)
    ensures !Contains(CleanJsonResponse(content), Fence)
  {
    var k := IndexOf(content[3..], Fence).value;
    SplitFenced(content, k);
    var segment := content[3..3 + k];
    SplitPartsAvoidSeparator(content, Fence, 1);
    DropFirstLineAvoids(segment, Fence);
    StripAvoids(DropFirstLine(segment), Fence);
    CleanFirstSegment(content, k);
  }

  /** Trimmed text free of fences is a fixed point. */
  lemma CleanFenceFree(s: string)
    requires NoEdgeSpace(s) && !Contains(s, Fence)
    ensures CleanJsonResponse(s) == s
  {
    if StartsWith(s, Fence) {
      assert OccursAt(s, Fence, 0);
    }
    StripUnpadded(s);
  }

  /** Trimming the end of a text keeps it from starting with a fence when
      it did not. */
  lemma TrimEndKeepsUnfenced(content: string)
    requires !StartsWith(content, Fence)
    ensures !StartsWith(TrimEnd(content), Fence)
  {
  }

  /** Trimming the end of a text with a lone opening fence keeps the fence
      and keeps it lone. */
  lemma TrimEndKeepsLoneFence(content: string)
    requires StartsWith(content, Fence) && !Contains(content[3..], Fence)
    ensures StartsWith(TrimEnd(content), Fence)
    ensures !Contains(TrimEnd(content)[3..], Fence)
  {
    var r := TrimEnd(content);
    assert content[2] == '`' by {
      assert content[..3][2] == Fence[2];
    }
    assert |r| >= 3;
    assert r[..3] == content[..3];
    assert r[3..] == content[3..][0..|r| - 3];
    SliceAvoids(content[3..], 0, |r| - 3, Fence);
  }

  /** Cleaning is idempotent on text without leading whitespace, which is
      all it is ever given: `analyze_word` strips the reply first. */
  lemma CleanIdempotent(content: string)
    requires content == [] || !IsSpace(content[0])
    ensures CleanJsonResponse(CleanJsonResponse(content)) == CleanJsonResponse(content)
  {
    var r := CleanJsonResponse(content);
    StripNoLeadingSpace(content);
    if !StartsWith(content, Fence) {
      TrimEndKeepsUnfenced(content);
      StripUnpadded(r);
    } else if Contains(content[3..], Fence) {
      CleanFencedHasNoFence(content);
      CleanFenceFree(r);
    } else {
      CleanSingleFence(content);
      TrimEndKeepsLoneFence(content);
      CleanSingleFence(r);
      StripUnpadded(r);
    }
  }

  /** Without the guarantee of no leading whitespace, cleaning is not
      idempotent: an indented one-line fenced block loses its fences only on
      the second pass. */
  lemma CleanNotIdempotentWhenIndented(x: string)
    requires x != [] && NoEdgeSpace(x) && '`' !in x && '\n' !in x
    ensures CleanJsonResponse(" " + Fence + x + Fence) == Fence + x + Fence
    ensures CleanJsonResponse(Fence + x + Fence) == x != Fence + x + Fence
  {
    var indented := " " + Fence + x + Fence;
    assert !StartsWith(indented, Fence) by {
      assert indented[0] == ' ';
    }
    assert indented == " " + (Fence + x + Fence) + "";
    StripPadded(" ", Fence + x + Fence, "");
    CleanFencedBlock(x, "");
    assert Fence + x + Fence + "" == Fence + x + Fence;
    StripUnpadded(x);
  }

  /** The first line break ends the dropped text, so a tag free of line
      breaks followed by one goes, and exactly that. */
  lemma DropTagLine(tag: string, rest: string)
    requires '\n' !in tag
    ensures DropFirstLine(tag + "\n" + rest) == rest
  {
    var segment := tag + "\n" + rest;
    assert segment[|tag|] == '\n';
    var r := DropFirstLine(segment);
    var p := |segment| - |r| - 1;
    assert p == |tag|;
    assert r == segment[|tag| + 1..];
  }

  /** A line break after a tag and a body, each free of backticks, keeps
      them free of backticks. */
  lemma TaggedBodyHasNoBacktick(tag: string, json: string)
    requires '`' !in tag && '`' !in json
    ensures '`' !in tag + "\n" + json + "\n"
  {
    var body := tag + "\n" + json + "\n";
    forall i | 0 <= i < |body|
      ensures body[i] != '`'
    {
      if i < |tag| { assert body[i] == tag[i]; }
      else if |tag| < i < |tag| + 1 + |json| { assert body[i] == json[i - |tag| - 1]; }
    }
  }

  /** A fenced block whose first line is a language tag: the tag line goes. */
  lemma CleanTaggedBlock(tag: string, json: string)
    requires '\n' !in tag && '`' !in tag
    requires '`' !in json && NoEdgeSpace(json)
    ensures CleanJsonResponse(Fence + tag + "\n" + json + "\n" + Fence) == json
  {
    var body := tag + "\n" + json + "\n";
    assert Fence + tag + "\n" + json + "\n" + Fence == Fence + body + Fence + "";
    assert body == tag + "\n" + (json + "\n");
    assert "" + json + "\n" == json + "\n";
    DropTagLine(tag, json + "\n");
    StripPadded("", json, "\n");
    TaggedBodyHasNoBacktick(tag, json);
    CleanFencedBlock(body, "");
  }

  /** The documented shapes: a `json`-tagged block and an untagged block
      give the same payload. */
  lemma CleanJsonBlocks(json: string)
    requires '`' !in json && NoEdgeSpace(json)
    ensures CleanJsonResponse("```json\n" + json + "\n```") == json
    ensures CleanJsonResponse("```\n" + json + "\n```") == json
  {
    assert Fence + "json" + "\n" + json + "\n" + Fence == "```json\n" + json + "\n```";
    assert Fence + "" + "\n" + json + "\n" + Fence == "```\n" + json + "\n```";
    CleanTaggedBlock("json", json);
    CleanTaggedBlock("", json);
  }

  /** A one-line fenced block keeps its tag: nothing marks where it ends. */
  lemma CleanOneLineBlock(line: string)
    requires '`' !in line && '\n' !in line && NoEdgeSpace(line)
    ensures CleanJsonResponse(Fence + line + Fence) == line
  {
    assert Fence + line + Fence + "" == Fence + line + Fence;
    assert DropFirstLine(line) == line;
    CleanFencedBlock(line, "");
    StripUnpadded(line);
  }

  // ---------------------------------------------------------------------
  // API key check

  /** The prefix every accepted key carries. */
  const KeyPrefix: string := "sk-"

  /** Start-up validation of the configured key: it is trimmed, and start-up
      fails unless the trimmed key starts with `sk-`. */
  function ValidateApiKey(raw: string): (r: Result<string, Error>)
    ensures r.Ok? ==> StartsWith(r.value, KeyPrefix) && NoEdgeSpace(r.value)
    ensures r.Err? ==> r.error == ValueError("Invalid OpenAI API key format")
  {
    var key := Strip(raw);
    if StartsWith(key, KeyPrefix) then Ok(key)
    else Err(ValueError("Invalid OpenAI API key format"))
  }

  /** A key surrounded by whitespace is accepted exactly when the key itself
      starts with `sk-`, and the padding is not kept. */
  lemma ApiKeyAcceptance(pre: string, key: string, post: string)
    requires AllSpace(pre) && AllSpace(post) && NoEdgeSpace(key)
    ensures ValidateApiKey(pre + key + post).Ok? <==> StartsWith(key, KeyPrefix)
    ensures ValidateApiKey(pre + key + post).Ok? ==> ValidateApiKey(pre + key + post).value == key
  {
    StripPadded(pre, key, post);
  }

  // ---------------------------------------------------------------------
  // analyze_word

  /** The two messages sent to the chat-completion endpoint. */
  datatype ChatRequest = ChatRequest(system: string, user: string)

  /** What reading `response.choices[0].message.content` ends in: the text,
      or the message of whatever the call or the access raised. */
  datatype Completion = Reply(content: string) | Raised(cause: string)

  /** What `json.loads` ends in: a decoded value of the abstract JSON type
      `J`, or the message of its `JSONDecodeError`. */
  datatype Decoding<J> = Decoded(value: J) | Malformed(cause: string)

  const AnalysisErrorPrefix: string := "Error analyzing word: "
  const InvalidJsonPrefix: string := "Invalid JSON response from OpenAI: "

  /** The request `analyze_word` sends for `word`. */
  function RequestFor(word: string): (q: ChatRequest)
    ensures q.system == Prompts.SystemPrompt
    ensures q.user == Prompts.AnalysisPrompt(word)
    ensures StartsWith(q.user, Prompts.PromptHead + word + "\"")
  {
    Prompts.PromptStartsWithWord(word);
    ChatRequest(Prompts.SystemPrompt, Prompts.AnalysisPrompt(word))
  }

  /** What `analyze_word` makes of the completion: strip the reply, clean
      it, decode it; every failure becomes a `ValueError` whose message
      starts "Error analyzing word: ". The decoded value is returned as it
      is. */
  function HandleCompletion<J>(reply: Completion, decode: string -> Decoding<J>): (r: Result<J, Error>)
    ensures r.Err? ==> StartsWith(r.error.message, AnalysisErrorPrefix)
  {
    match reply
    case Raised(cause) =>
      Err(ValueError(AnalysisErrorPrefix + cause))
    case Reply(content) =>
      var cleaned := CleanJsonResponse(Strip(content));
      match decode(cleaned)
      case Decoded(value) => Ok(value)
      case Malformed(cause) =>
        Err(ValueError(AnalysisErrorPrefix + (InvalidJsonPrefix + cause)))
  }

  /** `analyze_word(word)`, given the completion endpoint `complete` and the
      decoder `decode`: the completion of the request for `word`, handled. */
  function AnalyzeWord<J>(word: string, complete: ChatRequest -> Completion,
                          decode: string -> Decoding<J>): (r: Result<J, Error>)
    ensures r.Err? ==> StartsWith(r.error.message, AnalysisErrorPrefix)
  {
    HandleCompletion(complete(RequestFor(word)), decode)
  }

  /** Success exactly when the endpoint replied and the decoder accepted the
      cleaned reply, and then the result is the decoder's value unchanged:
      nothing checks that it is an object or has the expected keys. */
  lemma AnalyzeWordSucceeds<J>(word: string, complete: ChatRequest -> Completion,
                               decode: string -> Decoding<J>, v: J)
    ensures AnalyzeWord(word, complete, decode) == Ok(v) <==>
      (complete(RequestFor(word)).Reply? &&
       decode(CleanJsonResponse(Strip(complete(RequestFor(word)).content))) == Decoded(v))
  {
  }

  /** The error message is the cause wrapped once for a failed call and
      twice for a reply that does not decode. */
  lemma AnalyzeWordFails<J>(word: string, complete: ChatRequest -> Completion,
                            decode: string -> Decoding<J>)
    ensures complete(RequestFor(word)).Raised? ==>
      AnalyzeWord(word, complete, decode) ==
        Err(ValueError(AnalysisErrorPrefix + complete(RequestFor(word)).cause))
    ensures complete(RequestFor(word)).Reply? ==>
      var cleaned := CleanJsonResponse(Strip(complete(RequestFor(word)).content));
      decode(cleaned).Malformed? ==>
        AnalyzeWord(word, complete, decode) ==
          Err(ValueError(AnalysisErrorPrefix + (InvalidJsonPrefix + decode(cleaned).cause)))
  {
  }

  /** The word reaches the outcome only through the request: two words whose
      requests get the same completion have the same outcome, error message
      included, so the message never names the word. */
  lemma AnalyzeWordDependsOnlyOnReply<J>(w1: string, w2: string,
                                         c1: ChatRequest -> Completion, c2: ChatRequest -> Completion,
                                         decode: string -> Decoding<J>)
    requires c1(RequestFor(w1)) == c2(RequestFor(w2))
    ensures AnalyzeWord(w1, c1, decode) == AnalyzeWord(w2, c2, decode)
  {
  }

  /** The text handed to the decoder is a fixed point of cleaning. */
  lemma DecoderInputIsClean(content: string)
    ensures CleanJsonResponse(CleanJsonResponse(Strip(content))) == CleanJsonResponse(Strip(content))
  {
    CleanIdempotent(Strip(content));
  }
}

=== FILE: prompts.dfy ===
/** `app/prompts/arabic_analysis.py`: the fixed system prompt and the user
    prompt for one word. The prompt is a single template with two holes,
    both filled with the word as it is, without escaping; the template's
    doubled braces render as single ones and are written single here. */
module Prompts {
  import opened Text
  import Schema

  /** `SYSTEM_PROMPT`. */
  const SystemPrompt: string := "You are an expert in Arabic morphology."

  /** The template up to the first hole. */
  const PromptHead: string := "\n    Given the Arabic word \""

  /** The lines of the template from the quote that closes the first hole
      to the opening of the JSON example. */
  const InstructionLines: seq<string> := [
    ", analyze it and provide:\n",
    "    1. The morphological pattern (الوزن)\n",
    "    2. The root verb (الفعل)\n",
    "    3. The type of the word (نوع الكلمة) (e.g., noun, verb, adjective)\n",
    "    4. The singular/plural form (العدد)\n",
    "    5. The gender (الجنس)\n",
    "    6. The tense (الزمن) if it's a verb\n",
    "    7. The derivation type (نوع الاشتقاق) (e.g., اسم فاعل, اسم مفعول)\n",
    "    8. The meaning of the root verb (معنى الجذر)\n",
    "    9. The diacritical marks (الحركات)\n",
    "    10. An example of usage (مثال الاستخدام)\n",
    "\n",
    "    Provide the response in JSON format with these exact keys in Arabic:\n",
    "    {\n"
  ]

  /** Those lines as one text. */
  const Instructions: string := Join("", InstructionLines)

  /** The end of the template, after the last key of the JSON example. */
  const TemplateClose: string := "\n    }\n    "

  /** The keys of the JSON example, in order, spelled with spaces. */
  const TemplateKeys: seq<string> := [
    "الكلمة",
    "الوزن",
    "الفعل",
    "نوع الكلمة",
    "العدد",
    "الجنس",
    "الزمن",
    "نوع الاشتقاق",
    "معنى الجذر",
    "الحركات",
    "مثال الاستخدام"
  ]

  /** The placeholder values of every key but the first, whose value is
      the word itself. */
  const Placeholders: seq<string> := [
    "the pattern",
    "the root verb",
    "type of the word",
    "singular/plural",
    "gender",
    "tense",
    "derivation type",
    "meaning of the root verb",
    "diacritical marks",
    "example of usage"
  ]

  function Quoted(s: string): string {
    "\"" + s + "\""
  }

  /** One line of the JSON example: `"key": "value"`, indented. */
  function Entry(key: string, value: string): string {
    "        " + Quoted(key) + ": " + Quoted(value)
  }

  /** The lines of the JSON example after the first. */
  function FixedEntries(): seq<string> {
    seq(10, i requires 0 <= i < 10 => Entry(TemplateKeys[i + 1], Placeholders[i]))
  }

  /** All lines of the JSON example for `word`. */
  function TemplateEntries(word: string): seq<string> {
    [Entry(TemplateKeys[0], word)] + FixedEntries()
  }

  /** `get_analysis_prompt(word)`: fixed text with the word inserted at
      exactly two places, the quoted word after `Given the Arabic word ` and
      the value of the first key of the JSON example, so everything else in
      the prompt does not depend on the word. */
  function AnalysisPrompt(word: string): (r: string)
    ensures r == PromptHead + word + PromptMiddle + word + PromptTail()
  {
    var es := TemplateEntries(word);
    var rest := Join(",\n", FixedEntries());
    assert es[1..] == FixedEntries();
    assert Join(",\n", es) == es[0] + ",\n" + rest;
    TwoHolesRegroup(PromptHead, word, "\"", Instructions, "        ", TemplateKeys[0], ": ", ",\n", rest, TemplateClose);
    PromptHead + word + "\"" + Instructions + Join(",\n", es) + TemplateClose
  }

  /** The text between the two copies of the word. */
  const PromptMiddle: string := "\"" + Instructions + "        " + "\"" + TemplateKeys[0] + "\"" + ": " + "\""

  /** The text after the second copy of the word. */
  function PromptTail(): string {
    "\"" + ",\n" + Join(",\n", FixedEntries()) + TemplateClose
  }

  /** The regrouping behind `AnalysisPrompt`'s contract, on text of any value. */
  lemma TwoHolesRegroup(head: string, word: string, q: string, body: string, indent: string,
                        key: string, colon: string, sep: string, rest: string, close: string)
    ensures head + word + q + body + (indent + (q + key + q) + colon + (q + word + q) + sep + rest) + close
         == head + word + (q + body + indent + q + key + q + colon + q) + word + (q + sep + rest + close)
  {
  }

  /** The regrouping behind `PromptStartsWithWord`, on text of any value. */
  lemma PrefixRegroup(head: string, word: string, q: string, body: string, entries: string, close: string)
    ensures head + word + q + body + entries + close == (head + word + q) + (body + entries + close)
  {
  }

  /** The prompt starts by quoting the word verbatim. */
  lemma PromptStartsWithWord(word: string)
    ensures StartsWith(AnalysisPrompt(word), PromptHead + word + "\"")
  {
    var entries := Join(",\n", TemplateEntries(word));
    PrefixRegroup(PromptHead, word, "\"", Instructions, entries, TemplateClose);
    StartsWithConcat(PromptHead + word + "\"", Instructions + entries + TemplateClose);
  }

  /** Every line of the JSON example is in the prompt. */
  lemma PromptContainsEntry(word: string, i: int)
    requires 0 <= i < 11
    ensures Contains(AnalysisPrompt(word), TemplateEntries(word)[i])
  {
    var es := TemplateEntries(word);
    JoinContainsPart(",\n", es, i);
    ContainsWithin(PromptHead + word + "\"" + Instructions, Join(",\n", es), TemplateClose, es[i]);
  }

  /** A line of the JSON example holds its key, quoted and followed by a
      colon, and its value, quoted. */
  lemma EntryContainsKey(key: string, value: string)
    ensures Contains(Entry(key, value), Quoted(key) + ": ")
    ensures Contains(Entry(key, value), Quoted(key) + ": " + Quoted(value))
  {
    assert Entry(key, value) == "        " + (Quoted(key) + ": ") + Quoted(value);
    ContainsInfix("        ", Quoted(key) + ": ", Quoted(value));
    assert Entry(key, value) == "        " + (Quoted(key) + ": " + Quoted(value)) + "";
    ContainsInfix("        ", Quoted(key) + ": " + Quoted(value), "");
  }

  /** The word appears a second time, as the value of the first key. */
  lemma PromptEchoesWord(word: string)
    ensures Contains(AnalysisPrompt(word), Quoted(TemplateKeys[0]) + ": " + Quoted(word))
  {
    PromptContainsEntry(word, 0);
    EntryContainsKey(TemplateKeys[0], word);
    ContainsTrans(AnalysisPrompt(word), TemplateEntries(word)[0], Quoted(TemplateKeys[0]) + ": " + Quoted(word));
  }

  /** Every key of the JSON example is spelled out, quoted, in the prompt. */
  lemma PromptListsEveryKey(word: string, i: int)
    requires 0 <= i < |TemplateKeys|
    ensures Contains(AnalysisPrompt(word), Quoted(TemplateKeys[i]) + ": ")
  {
    var es := TemplateEntries(word);
    var value := if i == 0 then word else Placeholders[i - 1];
    assert es[i] == Entry(TemplateKeys[i], value);
    PromptContainsEntry(word, i);
    EntryContainsKey(TemplateKeys[i], value);
    ContainsTrans(AnalysisPrompt(word), es[i], Quoted(TemplateKeys[i]) + ": ");
  }

  /** A text with two holes filled by the same word determines the word. */
  lemma TwoHolesInjective(head: string, middle: string, tail: string, w1: string, w2: string)
    requires head + w1 + middle + w1 + tail == head + w2 + middle + w2 + tail
    ensures w1 == w2
  {
    var p1 := head + w1 + middle + w1 + tail;
    var p2 := head + w2 + middle + w2 + tail;
    assert |p1| == |head| + |middle| + |tail| + 2 * |w1|;
    assert |p2| == |head| + |middle| + |tail| + 2 * |w2|;
    assert p1 == head + w1 + (middle + w1 + tail);
    assert p2 == head + w2 + (middle + w2 + tail);
    assert p1[|head|..|head| + |w1|] == w1;
    assert p2[|head|..|head| + |w2|] == w2;
  }

  /** Different words give different prompts. */
  lemma PromptInjective(w1: string, w2: string)
    requires AnalysisPrompt(w1) == AnalysisPrompt(w2)
    ensures w1 == w2
  {
    TwoHolesInjective(PromptHead, PromptMiddle, PromptTail(), w1, w2);
  }

  /** A schema field name is a template key with its spaces replaced by
      underscores. */
  function Underscored(key: string): (r: string)
    ensures |r| == |key| && ' ' !in r
  {
    seq(|key|, i requires 0 <= i < |key| => if key[i] == ' ' then '_' else key[i])
  }

  /** The template's keys are not the schema's field names: the four keys
      spelled with a space match no field, the other seven match the field of
      the same position, which includes every required field. */
  lemma TemplateKeysVersusSchema()
    ensures |TemplateKeys| == |Schema.Fields|
    ensures forall i :: 0 <= i < |TemplateKeys| ==> Schema.Fields[i] == Underscored(TemplateKeys[i])
    ensures forall i :: 0 <= i < |TemplateKeys| ==> (TemplateKeys[i] in Schema.Fields <==> ' ' !in TemplateKeys[i])
    ensures forall f :: f in Schema.RequiredFields ==> f in TemplateKeys
  {
  }
}

=== FILE: schema.dfy ===
/** The field names of the `WordAnalysis` response model in
    `app/schemas/word.py`. Validation itself is the library's; the model
    only needs the names, to compare them with the prompt's keys. */
module Schema {

  /** The declared fields, in order; the first three are required. */
  const Fields: seq<string> := [
    "الكلمة",
    "الوزن",
    "الفعل",
    "نوع_الكلمة",
    "العدد",
    "الجنس",
    "الزمن",
    "نوع_الاشتقاق",
    "معنى_الجذر",
    "الحركات",
    "مثال_الاستخدام"
  ]

  const RequiredFields: seq<string> := Fields[..3]
}

=== FILE: text.dfy ===
/** The Python `str` operations the service relies on, over `string`
    (a sequence of Unicode code points): `strip()`, `startswith`, `in` and
    `split(sep)`. `IndexOf` is the search for the separator inside `split`;
    `Join` lays out the lines of the prompt template. */
module Text {
  import opened Wrappers

  /** Python's `str.isspace()` for a single code point: the characters
      `strip()` with no argument removes from either end. */
  predicate IsSpace(c: char) {
    var n := c as int;
    || 0x09 <= n <= 0x0D || 0x1C <= n <= 0x20
    || n == 0x85 || n == 0xA0 || n == 0x1680
    || 0x2000 <= n <= 0x200A
    || n == 0x2028 || n == 0x2029 || n == 0x202F || n == 0x205F || n == 0x3000
  }

  predicate AllSpace(s: string) {
    forall i :: 0 <= i < |s| ==> IsSpace(s[i])
  }

  /** Neither the first nor the last character is whitespace. */
  predicate NoEdgeSpace(s: string) {
    s == [] || (!IsSpace(s[0]) && !IsSpace(s[|s| - 1]))
  }

  /** `s.lstrip()`: drops the longest all-whitespace prefix. */
  function TrimStart(s: string): (r: string)
    ensures |r| <= |s| && r == s[|s| - |r|..]
    ensures AllSpace(s[..|s| - |r|])
    ensures r == [] || !IsSpace(r[0])
    decreases |s|
  {
    if |s| > 0 && IsSpace(s[0]) then TrimStart(s[1..]) else s
  }

  /** `s.rstrip()`: drops the longest all-whitespace suffix. */
  function TrimEnd(s: string): (r: string)
    ensures |r| <= |s| && r == s[..|r|]
    ensures AllSpace(s[|r|..])
    ensures r == [] || !IsSpace(r[|r| - 1])
    decreases |s|
  {
    if |s| > 0 && IsSpace(s[|s| - 1]) then TrimEnd(s[..|s| - 1]) else s
  }

  /** `s.strip()`. */
  function Strip(s: string): (r: string)
    ensures NoEdgeSpace(r)
    ensures |r| <= |s|
  {
    TrimEnd(TrimStart(s))
  }

  /** `s.startswith(p)`. */
  predicate StartsWith(s: string, p: string) {
    |p| <= |s| && s[..|p|] == p
  }

  /** `t` occurs in `s` starting at index `i`. */
  predicate OccursAt(s: string, t: string, i: int) {
    0 <= i && i + |t| <= |s| && s[i..i + |t|] == t
  }

  /** `t in s`. */
  predicate Contains(s: string, t: string) {
    exists i | 0 <= i <= |s| - |t| :: OccursAt(s, t, i)
  }

  /** The leftmost search `split` performs, from position `k` on: the first
      occurrence of `t` at or after `k`, if any. */
  function IndexFrom(s: string, t: string, k: nat): (r: Option<nat>)
    ensures r.Some? ==> k <= r.value && OccursAt(s, t, r.value)
    ensures r.Some? ==> forall j :: k <= j < r.value ==> !OccursAt(s, t, j)
    ensures r.None? ==> forall j :: k <= j ==> !OccursAt(s, t, j)
    decreases |s| - k
  {
    if k + |t| > |s| then None
    else if s[k..k + |t|] == t then Some(k)
    else IndexFrom(s, t, k + 1)
  }

  /** The leftmost search `split` performs: the first occurrence of `t` in
      `s`, if any. */
  function IndexOf(s: string, t: string): (r: Option<nat>)
    ensures r.Some? ==> OccursAt(s, t, r.value)
    ensures r.Some? ==> forall j :: 0 <= j < r.value ==> !OccursAt(s, t, j)
    ensures r.None? <==> !Contains(s, t)
  {
    IndexFrom(s, t, 0)
  }

  /** `s.split(sep)`: cut at the non-overlapping occurrences of `sep`, found
      from left to right. Python rejects an empty separator. */
  function Split(s: string, sep: string): (parts: seq<string>)
    requires |sep| > 0
    ensures |parts| >= 1
    decreases |s|
  {
    match IndexOf(s, sep)
    case None => [s]
    case Some(i) => [s[..i]] + Split(s[i + |sep|..], sep)
  }

  /** `sep.join(parts)`. */
  function Join(sep: string, parts: seq<string>): string
    decreases |parts|
  {
    if |parts| == 0 then ""
    else if |parts| == 1 then parts[0]
    else parts[0] + sep + Join(sep, parts[1..])
  }

  // ---------------------------------------------------------------------
  // Lemmas about the operations above.

  /** `Strip` keeps the middle of `s` and drops only whitespace around it. */
  lemma StripIsInnerSlice(s: string) returns (i: nat)
    ensures i + |Strip(s)| <= |s|
    ensures Strip(s) == s[i..i + |Strip(s)|]
    ensures AllSpace(s[..i]) && AllSpace(s[i + |Strip(s)|..])
  {
    var t := TrimStart(s);
    i := |s| - |t|;
    var r := TrimEnd(t);
    assert Strip(s) == r;
    assert t == s[i..];
    assert r == t[..|r|];
    assert t[..|r|] == s[i..i + |r|];
    assert t[|r|..] == s[i + |r|..];
  }

  /** Stripping text that is already stripped changes nothing. */
  lemma StripUnpadded(s: string)
    requires NoEdgeSpace(s)
    ensures Strip(s) == s
  {
    assert TrimStart(s) == s;
  }

  /** On text without leading whitespace, `strip()` is `rstrip()`, so it
      returns a prefix of its argument. */
  lemma StripNoLeadingSpace(s: string)
    requires s == [] || !IsSpace(s[0])
    ensures Strip(s) == TrimEnd(s)
    ensures Strip(s) == s[..|Strip(s)|]
  {
    assert TrimStart(s) == s;
  }

  /** `strip()` recovers exactly the text between whitespace padding. */
  lemma {:induction false} StripPadded(pre: string, s: string, post: string)
    requires AllSpace(pre) && AllSpace(post) && NoEdgeSpace(s)
    ensures Strip(pre + s + post) == s
  {
    if s == [] {
      assert pre + s + post == pre + post;
      TrimStartPadded(pre + post, []);
      assert pre + post + [] == pre + post;
    } else {
      assert pre + s + post == pre + (s + post);
      TrimStartPadded(pre, s + post);
      TrimEndPadded(s, post);
    }
  }

  lemma {:induction false} TrimStartPadded(pre: string, s: string)
    requires AllSpace(pre) && (s == [] || !IsSpace(s[0]))
    ensures TrimStart(pre + s) == s
    decreases |pre|
  {
    if pre != [] {
      assert (pre + s)[1..] == pre[1..] + s;
      TrimStartPadded(pre[1..], s);
    }
  }

  lemma {:induction false} TrimEndPadded(s: string, post: string)
    requires AllSpace(post) && (s == [] || !IsSpace(s[|s| - 1]))
    ensures TrimEnd(s + post) == s
    decreases |post|
  {
    if post != [] {
      var n := |post| - 1;
      assert (s + post)[..|s + post| - 1] == s + post[..n];
      TrimEndPadded(s, post[..n]);
    }
  }

  /** An occurrence inside a slice is an occurrence in the whole string. */
  lemma OccursInSlice(s: string, lo: int, hi: int, t: string, j: int)
    requires 0 <= lo <= hi <= |s|
    requires OccursAt(s[lo..hi], t, j)
    ensures OccursAt(s, t, lo + j)
  {
    forall k | 0 <= k < |t|
      ensures s[lo + j..lo + j + |t|][k] == t[k]
    {
      assert t[k] == s[lo..hi][j..j + |t|][k];
    }
  }

  /** A slice of text free of `t` is free of `t`. */
  lemma SliceAvoids(s: string, lo: int, hi: int, t: string)
    requires 0 <= lo <= hi <= |s|
    requires !Contains(s, t)
    ensures !Contains(s[lo..hi], t)
  {
    if Contains(s[lo..hi], t) {
      var j :| OccursAt(s[lo..hi], t, j);
      OccursInSlice(s, lo, hi, t, j);
    }
  }

  /** Stripping adds no occurrence. */
  lemma StripAvoids(s: string, t: string)
    requires !Contains(s, t)
    ensures !Contains(Strip(s), t)
  {
    var r := Strip(s);
    var i := StripIsInnerSlice(s);
    assert s[i..i + |r|] == r;
    SliceAvoids(s, i, i + |r|, t);
  }

  /** The leftmost search `split` performs returns the occurrence that has
      no earlier one. */
  lemma IndexOfFirst(s: string, t: string, k: nat)
    requires OccursAt(s, t, k)
    requires forall j :: 0 <= j < k ==> !OccursAt(s, t, j)
    ensures IndexOf(s, t) == Some(k)
  {
    var r := IndexOf(s, t);
    assert r.Some?;
    assert !(r.value < k);
  }

  /** What follows the first occurrence does not change where it is. */
  lemma IndexOfKeepsFirst(s: string, t: string, k: nat, tail: string)
    requires IndexOf(s, t) == Some(k)
    ensures IndexOf(s[..k + |t|] + tail, t) == Some(k)
  {
    var s' := s[..k + |t|] + tail;
    assert s'[k..k + |t|] == s[k..k + |t|];
    forall j | 0 <= j < k
      ensures !OccursAt(s', t, j)
    {
      assert !OccursAt(s, t, j);
      assert s'[j..j + |t|] == s[j..j + |t|];
    }
    IndexOfFirst(s', t, k);
  }

  /** No part produced by `split` contains the separator. */
  lemma {:induction false} SplitPartsAvoidSeparator(s: string, sep: string, i: int)
    requires |sep| > 0
    requires 0 <= i < |Split(s, sep)|
    ensures !Contains(Split(s, sep)[i], sep)
    decreases |s|
  {
    match IndexOf(s, sep)
    case None =>
    case Some(k) =>
      if i == 0 {
        if Contains(s[..k], sep) {
          var j :| OccursAt(s[..k], sep, j);
          OccursInSlice(s, 0, k, sep, j);
        }
      } else {
        SplitPartsAvoidSeparator(s[k + |sep|..], sep, i - 1);
      }
  }

  /** `split` cuts at the leftmost occurrence of the separator, and returns
      the text whole when there is none. */
  lemma SplitCutsAtFirst(s: string, sep: string)
    requires |sep| > 0
    ensures IndexOf(s, sep).None? ==> Split(s, sep) == [s]
    ensures IndexOf(s, sep).Some? ==>
              var i := IndexOf(s, sep).value;
              Split(s, sep)[0] == s[..i] && Split(s, sep)[1..] == Split(s[i + |sep|..], sep)
  {
  }

  /** `sep.join(s.split(sep)) == s`: splitting loses nothing. */
  lemma {:induction false} SplitJoin(s: string, sep: string)
    requires |sep| > 0
    ensures Join(sep, Split(s, sep)) == s
    decreases |s|
  {
    var found := IndexOf(s, sep);
    if found.Some? {
      var k := found.value;
      var rest := s[k + |sep|..];
      var tail := Split(rest, sep);
      var parts := Split(s, sep);
      assert parts == [s[..k]] + tail;
      assert parts[1..] == tail;
      SplitJoin(rest, sep);
      assert Join(sep, parts) == s[..k] + sep + rest;
      assert s[k..k + |sep|] == sep;
      assert s == s[..k] + s[k..k + |sep|] + rest;
    }
  }

  /** Text placed between any two strings is found in the result. */
  lemma ContainsInfix(a: string, t: string, b: string)
    ensures Contains(a + t + b, t)
  {
    assert OccursAt(a + t + b, t, |a|);
  }

  /** An occurrence survives adding text on either side. */
  lemma ContainsWithin(a: string, s: string, b: string, t: string)
    requires Contains(s, t)
    ensures Contains(a + s + b, t)
  {
    var j :| OccursAt(s, t, j);
    assert (a + s + b)[|a|..|a| + |s|] == s;
    OccursInSlice(a + s + b, |a|, |a| + |s|, t, j);
  }

  /** A string starts with any of its prefixes. */
  lemma StartsWithConcat(a: string, b: string)
    ensures StartsWith(a + b, a)
  {
    assert (a + b)[..|a|] == a;
  }

  /** Containment is transitive. */
  lemma ContainsTrans(s: string, m: string, t: string)
    requires Contains(s, m) && Contains(m, t)
    ensures Contains(s, t)
  {
    var i :| 0 <= i <= |s| - |m| && OccursAt(s, m, i);
    var j :| 0 <= j <= |m| - |t| && OccursAt(m, t, j);
    assert s[i..i + |m|] == m;
    OccursInSlice(s, i, i + |m|, t, j);
  }

  /** Every part appears, verbatim, in `sep.join(parts)`. */
  lemma {:induction false} JoinContainsPart(sep: string, parts: seq<string>, i: int)
    requires 0 <= i < |parts|
    ensures Contains(Join(sep, parts), parts[i])
    decreases |parts|
  {
    if |parts| == 1 {
      assert OccursAt(parts[0], parts[0], 0);
    } else if i == 0 {
      ContainsInfix("", parts[0], sep + Join(sep, parts[1..]));
      assert "" + parts[0] + (sep + Join(sep, parts[1..])) == Join(sep, parts);
    } else {
      JoinContainsPart(sep, parts[1..], i - 1);
      ContainsWithin(parts[0] + sep, Join(sep, parts[1..]), "", parts[i]);
      assert parts[0] + sep + Join(sep, parts[1..]) + "" == Join(sep, parts);
    }
  }
}

=== FILE: word_analysis.dfy ===
/** `app/routers/word_analysis.py`: the two endpoints. The single endpoint
    turns any failure of `analyze_word` into an HTTP 500 whose detail is the
    error message. The bulk endpoint analyses every word, keeps the
    successes in input order, logs and skips the failures, and turns a
    failure of building the response model into an HTTP 500. */
module WordAnalysis {
  import opened Wrappers
  import opened Text
  import opened OpenAIService

  /** What an endpoint ends in: the value it returns, or the
      `HTTPException` it raises. */
  datatype Response<T> = Returned(body: T) | HttpException(status: int, detail: string)

  const InternalServerError: int := 500

  /** `analyze_single_word`: the analysis, or its error message as the
      detail of an HTTP 500. */
  function AnalyzeSingleWord<J>(word: string, complete: ChatRequest -> Completion,
                                decode: string -> Decoding<J>): (r: Response<J>)
    ensures r.HttpException? ==> r.status == InternalServerError && StartsWith(r.detail, AnalysisErrorPrefix)
  {
    match AnalyzeWord(word, complete, decode)
    case Ok(analysis) => Returned(analysis)
    case Err(e) => HttpException(InternalServerError, e.message)
  }

  /** The single endpoint returns exactly the analysis when there is one, and
      otherwise fails with status 500 and exactly the message of the error. */
  lemma SingleWordResponse<J>(word: string, complete: ChatRequest -> Completion,
                              decode: string -> Decoding<J>, v: J, status: int, detail: string)
    ensures AnalyzeSingleWord(word, complete, decode) == Returned(v) <==>
            AnalyzeWord(word, complete, decode) == Ok(v)
    ensures AnalyzeSingleWord(word, complete, decode) == HttpException(status, detail) <==>
            (status == InternalServerError && AnalyzeWord(word, complete, decode) == Err(ValueError(detail)))
  {
  }

  /** The analyses among the outcomes, in order: the list the bulk loop
      builds by appending each success and skipping each failure. */
  function Successes<J>(outcomes: seq<Result<J, Error>>): seq<J>
  {
    if outcomes == [] then []
    else
      var last := outcomes[|outcomes| - 1];
      Successes(outcomes[..|outcomes| - 1]) + (if last.Ok? then [last.value] else [])
  }

  /** The error log entry written for a word whose analysis failed: the
      line "Error analyzing word '<word>': <message>". */
  datatype LogLine = LogLine(word: string, message: string)

  /** The log lines the bulk loop writes, in order, each naming the word it
      is paired with. */
  function FailureLog<J>(words: seq<string>, outcomes: seq<Result<J, Error>>): seq<LogLine>
    requires |words| == |outcomes|
  {
    if outcomes == [] then []
    else
      var n := |outcomes| - 1;
      FailureLog(words[..n], outcomes[..n]) +
        (if outcomes[n].Err? then [LogLine(words[n], outcomes[n].error.message)] else [])
  }

  /** The positions of the successful outcomes. */
  function SuccessPositions<J>(outcomes: seq<Result<J, Error>>): set<int> {
    set i | 0 <= i < |outcomes| && outcomes[i].Ok?
  }

  /** The number of pairs `zip` forms: the length of the shorter list. */
  function ZipLength<A, B>(xs: seq<A>, ys: seq<B>): (n: nat)
    ensures n <= |xs| && n <= |ys| && (n == |xs| || n == |ys|)
  {
    if |xs| < |ys| then |xs| else |ys|
  }

  /** The loop of `analyze_multiple_words` over `zip(words, outcomes)`:
      each failure is logged against its word and skipped, each success
      appended. */
  method CollectSuccesses<J>(words: seq<string>, outcomes: seq<Result<J, Error>>)
    returns (results: seq<J>, log: seq<LogLine>)
    ensures results == Successes(outcomes[..ZipLength(words, outcomes)])
    ensures log == FailureLog(words[..ZipLength(words, outcomes)], outcomes[..ZipLength(words, outcomes)])
    ensures |results| + |log| == ZipLength(words, outcomes)
  {
    var n := ZipLength(words, outcomes);
    results, log := [], [];
    var i := 0;
    while i < n
      invariant 0 <= i <= n
      invariant results == Successes(outcomes[..i])
      invariant log == FailureLog(words[..i], outcomes[..i])
      invariant |results| + |log| == i
    {
      assert outcomes[..i + 1][..i] == outcomes[..i];
      assert words[..i + 1][..i] == words[..i];
      var outcome := outcomes[i];
      if outcome.Err? {
        log := log + [LogLine(words[i], outcome.error.message)];
      } else {
        results := results + [outcome.value];
      }
      i := i + 1;
    }
  }

  /** Filtering distributes over concatenation, so it keeps relative order. */
  lemma {:induction false} SuccessesAppend<J>(a: seq<Result<J, Error>>, b: seq<Result<J, Error>>)
    ensures Successes(a + b) == Successes(a) + Successes(b)
    decreases |b|
  {
    if b == [] {
      assert a + b == a;
    } else {
      var n := |b| - 1;
      assert (a + b)[..|a + b| - 1] == a + b[..n];
      SuccessesAppend(a, b[..n]);
    }
  }

  /** A failure removes itself and nothing else. */
  lemma SkipsOnlyTheFailure<J>(before: seq<Result<J, Error>>, e: Error, after: seq<Result<J, Error>>)
    ensures Successes(before + [Err(e)] + after) == Successes(before) + Successes(after)
  {
    var failure: seq<Result<J, Error>> := [Err(e)];
    assert failure[..0] == [];
    assert Successes(failure) == [];
    SuccessesAppend(before, failure);
    SuccessesAppend(before + failure, after);
  }

  /** The output is exactly the successful outcomes in input order: the
      k-th result is the outcome at the k-th position of a strictly
      increasing list that holds every successful position. */
  lemma {:induction false} SuccessesInOrder<J>(outcomes: seq<Result<J, Error>>) returns (positions: seq<int>)
    ensures |positions| == |Successes(outcomes)|
    ensures forall k :: 0 <= k < |positions| ==>
              0 <= positions[k] < |outcomes| && outcomes[positions[k]] == Ok(Successes(outcomes)[k])
    ensures forall k, l :: 0 <= k < l < |positions| ==> positions[k] < positions[l]
    ensures forall i :: 0 <= i < |outcomes| && outcomes[i].Ok? ==> i in positions
    decreases |outcomes|
  {
    if outcomes == [] {
      positions := [];
    } else {
      var n := |outcomes| - 1;
      var front := outcomes[..n];
      var earlier := SuccessesInOrder(front);
      assert outcomes[..|outcomes| - 1] == front;
      forall k | 0 <= k < |earlier|
        ensures outcomes[earlier[k]] == front[earlier[k]]
      {
      }
      if outcomes[n].Ok? {
        assert Successes(outcomes) == Successes(front) + [outcomes[n].value];
        positions := earlier + [n];
      } else {
        assert Successes(outcomes) == Successes(front);
        positions := earlier;
      }
    }
  }

  /** Every success is kept and nothing else appears. */
  lemma SuccessMembership<J>(outcomes: seq<Result<J, Error>>, v: J)
    ensures v in Successes(outcomes) <==> exists i :: 0 <= i < |outcomes| && outcomes[i] == Ok(v)
  {
    var positions := SuccessesInOrder(outcomes);
    if v in Successes(outcomes) {
      var k :| 0 <= k < |Successes(outcomes)| && Successes(outcomes)[k] == v;
      assert outcomes[positions[k]] == Ok(v);
    }
    if exists i :: 0 <= i < |outcomes| && outcomes[i] == Ok(v) {
      var i :| 0 <= i < |outcomes| && outcomes[i] == Ok(v);
      assert i in positions;
      var k :| 0 <= k < |positions| && positions[k] == i;
      assert Successes(outcomes)[k] == v;
    }
  }

  /** The output has one entry per successful outcome, so it is never longer
      than the input. */
  lemma {:induction false} SuccessCount<J>(outcomes: seq<Result<J, Error>>)
    ensures |Successes(outcomes)| == |SuccessPositions(outcomes)| <= |outcomes|
    decreases |outcomes|
  {
    if outcomes != [] {
      var n := |outcomes| - 1;
      var front := outcomes[..n];
      SuccessCount(front);
      var extra: set<int> := if outcomes[n].Ok? then {n} else {};
      assert SuccessPositions(outcomes) == SuccessPositions(front) + extra;
      assert n !in SuccessPositions(front);
    }
  }

  /** When nothing fails, the output is every analysis, unchanged. */
  lemma {:induction false} AllSucceed<J>(outcomes: seq<Result<J, Error>>)
    requires forall i :: 0 <= i < |outcomes| ==> outcomes[i].Ok?
    ensures Successes(outcomes) == seq(|outcomes|, i requires 0 <= i < |outcomes| => outcomes[i].value)
    decreases |outcomes|
  {
    if outcomes != [] {
      var n := |outcomes| - 1;
      AllSucceed(outcomes[..n]);
    }
  }

  /** Each failure is logged against the word at its own position. */
  lemma {:induction false} FailureLoggedAgainstItsWord<J>(words: seq<string>, outcomes: seq<Result<J, Error>>, i: int)
    requires |words| == |outcomes|
    requires 0 <= i < |outcomes| && outcomes[i].Err?
    ensures LogLine(words[i], outcomes[i].error.message) in FailureLog(words, outcomes)
    decreases |outcomes|
  {
    var n := |outcomes| - 1;
    if i < n {
      assert words[..n][i] == words[i];
      FailureLoggedAgainstItsWord(words[..n], outcomes[..n], i);
    }
  }

  /** Every log line is the line of a failure, naming the word at that
      failure's position. */
  lemma {:induction false} LogLineFromFailure<J>(words: seq<string>, outcomes: seq<Result<J, Error>>, line: LogLine)
    requires |words| == |outcomes|
    requires line in FailureLog(words, outcomes)
    ensures exists i :: 0 <= i < |outcomes| && outcomes[i].Err? && line == LogLine(words[i], outcomes[i].error.message)
    decreases |outcomes|
  {
    var n := |outcomes| - 1;
    if line in FailureLog(words[..n], outcomes[..n]) {
      LogLineFromFailure(words[..n], outcomes[..n], line);
      var i :| 0 <= i < n && outcomes[..n][i].Err? && line == LogLine(words[..n][i], outcomes[..n][i].error.message);
      assert outcomes[i] == outcomes[..n][i] && words[i] == words[..n][i];
    } else {
      assert outcomes[n].Err? && line == LogLine(words[n], outcomes[n].error.message);
    }
  }

  /** The log holds exactly the lines of the failures, each naming the word
      at its position. */
  lemma {:induction false} FailureLogExact<J>(words: seq<string>, outcomes: seq<Result<J, Error>>, line: LogLine)
    requires |words| == |outcomes|
    ensures line in FailureLog(words, outcomes) <==>
            exists i :: 0 <= i < |outcomes| && outcomes[i].Err? && line == LogLine(words[i], outcomes[i].error.message)
  {
    if line in FailureLog(words, outcomes) {
      LogLineFromFailure(words, outcomes, line);
    }
    if exists i :: 0 <= i < |outcomes| && outcomes[i].Err? && line == LogLine(words[i], outcomes[i].error.message) {
      var i :| 0 <= i < |outcomes| && outcomes[i].Err? && line == LogLine(words[i], outcomes[i].error.message);
      FailureLoggedAgainstItsWord(words, outcomes, i);
    }
  }

  /** Pydantic's validation of `results: List[WordAnalysis]`: each decoded
      entry is converted to a `WordAnalysis` record by `convert`, and the
      list converts exactly when every entry does, giving the records in
      the same order. */
  function ConvertAll<J, W>(results: seq<J>, convert: J -> Option<W>): (r: Option<seq<W>>)
    ensures r.Some? <==> forall k :: 0 <= k < |results| ==> convert(results[k]).Some?
    ensures r.Some? ==> |r.value| == |results| &&
                        forall k :: 0 <= k < |results| ==> convert(results[k]) == Some(r.value[k])
  {
    if results == [] then Some([])
    else
      var head := convert(results[0]);
      var tail := ConvertAll(results[1..], convert);
      assert forall k :: 1 <= k < |results| ==> results[1..][k - 1] == results[k];
      if head.Some? && tail.Some? then Some([head.value] + tail.value) else None
  }

  /** `return BulkWordAnalysis(results=...)` inside the handler's `try`: the
      records converted from the entries, when every entry converts, and
      otherwise an HTTP 500 whose detail is the validation error's text. */
  function BulkResponse<J, W>(results: seq<J>, convert: J -> Option<W>, describe: seq<J> -> string)
    : (r: Response<seq<W>>)
    ensures r.Returned? <==> forall k :: 0 <= k < |results| ==> convert(results[k]).Some?
    ensures r.Returned? ==> |r.body| == |results| &&
                            forall k :: 0 <= k < |results| ==> convert(results[k]) == Some(r.body[k])
    ensures r.HttpException? ==> r == HttpException(InternalServerError, describe(results))
  {
    match ConvertAll(results, convert)
    case Some(records) => Returned(records)
    case None => HttpException(InternalServerError, describe(results))
  }

  /** What `asyncio.gather(..., return_exceptions=True)` collects for the
      per-word analysis `analyze`: its outcome for each word, position by
      position. */
  function Gathered<J>(words: seq<string>, analyze: string -> Result<J, Error>): seq<Result<J, Error>> {
    seq(|words|, i requires 0 <= i < |words| => analyze(words[i]))
  }

  /** The outcomes the bulk endpoint gathers: `analyze_word` for each word. */
  function Outcomes<J>(words: seq<string>, complete: ChatRequest -> Completion,
                       decode: string -> Decoding<J>): seq<Result<J, Error>> {
    Gathered(words, w => AnalyzeWord(w, complete, decode))
  }

  /** `analyze_multiple_words` after `gather`: given one outcome per word,
      the response and the log lines. */
  method AnalyzeMultipleWords<J, W>(words: seq<string>, outcomes: seq<Result<J, Error>>,
                                    convert: J -> Option<W>, describe: seq<J> -> string)
    returns (response: Response<seq<W>>, log: seq<LogLine>)
    requires |outcomes| == |words|
    ensures response == BulkResponse(Successes(outcomes), convert, describe)
    ensures log == FailureLog(words, outcomes)
    ensures words == [] ==> response == Returned([]) && log == []
  {
    var results;
    results, log := CollectSuccesses(words, outcomes);
    assert words[..|words|] == words;
    assert outcomes[..|words|] == outcomes;
    response := BulkResponse(results, convert, describe);
  }

  /** A property every successful analysis has, every output entry has. */
  lemma {:induction false} SuccessesKeep<J>(outcomes: seq<Result<J, Error>>, p: J -> bool)
    requires forall i :: 0 <= i < |outcomes| && outcomes[i].Ok? ==> p(outcomes[i].value)
    ensures forall k :: 0 <= k < |Successes(outcomes)| ==> p(Successes(outcomes)[k])
  {
    if outcomes != [] {
      var front := outcomes[..|outcomes| - 1];
      assert forall i :: 0 <= i < |front| ==> front[i] == outcomes[i];
      SuccessesKeep(front, p);
    }
  }

  /** Failed analyses never fail the bulk request: when every analysis that
      succeeded converts, the request returns the records of them all. */
  lemma FailuresNeverFailTheRequest<J, W>(outcomes: seq<Result<J, Error>>, convert: J -> Option<W>,
                                          describe: seq<J> -> string)
    requires forall i :: 0 <= i < |outcomes| && outcomes[i].Ok? ==> convert(outcomes[i].value).Some?
    ensures BulkResponse(Successes(outcomes), convert, describe).Returned?
  {
    SuccessesKeep(outcomes, v => convert(v).Some?);
  }

  /** One successful analysis that does not convert fails the whole bulk
      request with status 500: skipping protects only against failed
      analyses. */
  lemma OneInvalidAnalysisFailsTheRequest<J, W>(outcomes: seq<Result<J, Error>>, i: int,
                                                convert: J -> Option<W>, describe: seq<J> -> string)
    requires 0 <= i < |outcomes| && outcomes[i].Ok? && convert(outcomes[i].value).None?
    ensures BulkResponse(Successes(outcomes), convert, describe) ==
            HttpException(InternalServerError, describe(Successes(outcomes)))
  {
    SuccessMembership(outcomes, outcomes[i].value);
  }

  /** End to end, from the words: the bulk output holds the analysis of
      exactly the words whose analysis succeeded. */
  lemma {:induction false} GatheredSuccesses<J>(words: seq<string>, analyze: string -> Result<J, Error>, v: J)
    ensures v in Successes(Gathered(words, analyze)) <==>
            exists i :: 0 <= i < |words| && analyze(words[i]) == Ok(v)
  {
    var outcomes := Gathered(words, analyze);
    SuccessMembership(outcomes, v);
    if v in Successes(outcomes) {
      var i :| 0 <= i < |outcomes| && outcomes[i] == Ok(v);
      assert analyze(words[i]) == Ok(v);
    }
    if exists i :: 0 <= i < |words| && analyze(words[i]) == Ok(v) {
      var i :| 0 <= i < |words| && analyze(words[i]) == Ok(v);
      assert outcomes[i] == Ok(v);
    }
  }

  /** End to end, from the words: the analyses come out in the order of the
      words they belong to. */
  lemma GatheredInWordOrder<J>(front: seq<string>, back: seq<string>, analyze: string -> Result<J, Error>)
    ensures Successes(Gathered(front + back, analyze)) ==
            Successes(Gathered(front, analyze)) + Successes(Gathered(back, analyze))
  {
    assert Gathered(front + back, analyze) == Gathered(front, analyze) + Gathered(back, analyze);
    SuccessesAppend(Gathered(front, analyze), Gathered(back, analyze));
  }

  /** End to end, from the words: the log names exactly the words whose
      analysis failed, each with its own error message. */
  lemma {:induction false} GatheredFailureLog<J>(words: seq<string>, analyze: string -> Result<J, Error>, line: LogLine)
    ensures line in FailureLog(words, Gathered(words, analyze)) <==>
            exists i :: 0 <= i < |words| && analyze(words[i]).Err? &&
                        line == LogLine(words[i], analyze(words[i]).error.message)
  {
    var outcomes := Gathered(words, analyze);
    FailureLogExact(words, outcomes, line);
    if exists i :: 0 <= i < |outcomes| && outcomes[i].Err? && line == LogLine(words[i], outcomes[i].error.message) {
      var i :| 0 <= i < |outcomes| && outcomes[i].Err? && line == LogLine(words[i], outcomes[i].error.message);
      assert analyze(words[i]) == outcomes[i];
    }
  }

  /** The bulk endpoint gathers `analyze_word` for each word, so each
      failed outcome carries the message `analyze_word` raised, which
      starts "Error analyzing word: ". */
  lemma GatheredAnalyzeWordFailures<J>(words: seq<string>, complete: ChatRequest -> Completion,
                                       decode: string -> Decoding<J>, i: int)
    requires 0 <= i < |words|
    ensures Outcomes(words, complete, decode)[i].Err? ==>
              StartsWith(Outcomes(words, complete, decode)[i].error.message, AnalysisErrorPrefix)
  {
    var outcomes := Outcomes(words, complete, decode);
    assert outcomes[i] == AnalyzeWord(words[i], complete, decode);
  }
}

=== FILE: wrappers.dfy ===
/** Failure-carrying values shared by the model: an optional value and a
    success-or-error result (the model's replacement for Python exceptions). */
module Wrappers {

  datatype Option<+T> = None | Some(value: T)

  datatype Result<+T, +E> = Ok(value: T) | Err(error: E)
}
